=== FILE: README.md ===
# OctoMap occupancy node codec and precision analyser, in Dafny

This project models two pieces of OctoMap.

The first is the occupancy value carried by an octree node (`OcTreeNode.cpp`):
- the node's log-odds value;
- the additive `addValue` update;
- the child aggregations `getMaxChildLogOdds` and `getMeanChildLogOdds`;
- the persistence of the value by `readData` / `writeData`.

For persistence, an encoding parameter selects the layout:
- 0 keeps the native float.
- 1 to 4 quantise the occupancy probability onto `0 .. 2^(8n) - 1`. The result is written as `n` bytes, low byte first.
- Any larger value is refused.

The second is the precision analyser (`octree_precision.cpp`). Its calibrated codec rescales a probability from the band `[THRESH_MIN, THRESH_MAX]` onto a `b`-bit integer and back. Its recursive `explore` walks a tree depth-first and returns the sum of squared round-trip errors together with the node count. Its driver repeats `explore` for every width from 1 to 32.

Modules, one per component:

| file | module | models |
|---|---|---|
| results.dfy | `Results` | `Option`, `Result`, and the error kinds: unsupported encoding and value overflow replace `exit(-1)`; read failure is the model's own |
| powers.dfy | `Powers` | `1 << k`, `256^n`, and the division facts behind byte shifts |
| real_arith.dfy | `RealArith` | order facts about real multiplication and division used by the codecs and the error analysis |
| rounding.dfy | `Rounding` | C's `round` (half away from zero) and quantisation `round(x * m)` |
| byte_codec.dfy | `ByteCodec` | the byte loops of `writeData` / `readData` over exact integers |
| proba_codec.dfy | `ProbaCodec` | `proba_encode` / `proba_decode` of OcTreeNode.cpp |
| octree_node.dfy | `OcTreeNode` | the node, `addValue`, `getMaxChildLogOdds`, `getMeanChildLogOdds` |
| node_io.dfy | `NodeIO` | the encoding dispatch, `writeData`, `readData` |
| calibrated_codec.dfy | `CalibratedCodec` | `proba_encode` / `proba_decode` of octree_precision.cpp |
| precision.dfy | `Precision` | `explore` and the 1..32 driver loop |

Modelling choices:
- A node is `Node(logOdds, children)`. `children` is a sequence of optional nodes. It is empty when the node has no child array; otherwise it holds one slot per octant, in octant order. The datatype replaces the engine's pointers and the unchecked `static_cast`. A tree is finite and owns its children.
- Floating point is idealised as `real`. C's `round` is `Rounding.Round`.
- The logistic transform (`probability`, and `exp(l)/(1+exp(l))` in `explore`) and its inverse, the logit (`logodds`, `log(mean/(1-mean))`), are a pair of functions `Logistic` passed in. Two predicates state what the transform guarantees where a property needs it:
  - `IsLogistic`: every probability lies strictly inside (0, 1);
  - `LogitInverts`: the logit undoes the logistic function.
- A stream is a sequence of tokens: single bytes, or the native float layout as one opaque token. Writing with encoding 0 emits that token, and reading takes it back unchanged.
- Every `exit(-1)` of the source becomes an `Err` value. The model adds one error the source does not have, `ReadFailure`, for a stream that does not start with the tokens the layout needs.
- `explore` only reads the tree. In the model it is a function from a node to `Stats(error, count)`, so it cannot change the tree.

## Behaviour worth knowing

The model follows the code in each of these points.
- **RMS curve.** One might expect the driver's error figure never to grow as the bit width grows. It can. Take a tree of one node whose probability lies one third of the way up the band. Its mean squared error is 0 at 2 bits and positive at 3 bits (`Precision.SweepCanRise`, built on `Precision.WiderIsNotAlwaysMoreAccurate` for the single probability). What does hold is the bound `Precision.PrecisionSweep` states: at width `b`, the mean squared error is at most the square of half a quantisation step.
- **Bit width 0.** The codec functions do not check for width 0, which would divide by zero. The driver only passes 1 to 32, so the model requires `precision >= 1`.
- **Byte-codec error bound.** A round trip through `n` bytes moves a probability by at most `1 / (2 (2^(8n) - 1))`, half a quantisation step (`ProbaCodec.QuantisationError`).
- **Mean with no children.** When no child is present, the code returns `log(0 / 1)`, which is negative infinity. The model returns `NegativeInfinity` in that case.

## Model

| member | source | states |
|---|---|---|
| ByteCodec.WriteBytes | octomap/src/OcTreeNode.cpp:133-137 | the write loop emits exactly `n` bytes, byte `i` is `(v / 256^i) % 256` (low byte first), the residue after `n` shifts is `v / 256^n`, it is zero exactly when `v < 256^n`, and then the bytes read back as `v` |
| ByteCodec.ReadBytes | octomap/src/OcTreeNode.cpp:108-113 | the read loop yields `sum byte_i * 256^i`, which is below `256^n`, and writing that value back reproduces the same bytes |
| ByteCodec.LittleEndian | octomap/src/OcTreeNode.cpp:108-113 | any `n` bytes read give a value below `256^n` |
| ByteCodec.WriteFixedPoint | octomap/src/OcTreeNode.cpp:133-143 | a write succeeds exactly when `v < 256^n` and then produces bytes that read back as `v`; otherwise it fails with the nonzero residue |
| ByteCodec.ResidueZeroIffFits | octomap/src/OcTreeNode.cpp:136-143 | nothing is left after `n` byte shifts if and only if the value fits in `n` bytes |
| ByteCodec.ReadAfterWrite | octomap/src/OcTreeNode.cpp:108-137 | read(write(v)) = v for every `v < 256^n` |
| ByteCodec.WriteAfterRead | octomap/src/OcTreeNode.cpp:108-137 | write(read(bytes)) = bytes for every byte string |
| ByteCodec.LittleEndianInjective | octomap/src/OcTreeNode.cpp:108-113 | two byte strings of one length that read as the same value are equal |
| ProbaCodec.Encode | octomap/src/OcTreeNode.cpp:100-102 | a probability in [0, 1] encodes to a code in `[0, 2^(8n) - 1]` |
| ProbaCodec.Decode | octomap/src/OcTreeNode.cpp:96-98 | a decoded value is non-negative, and it is at most 1 exactly when the code is at most `2^(8n) - 1` |
| ProbaCodec.MaxCodeFitsBytes | octomap/src/OcTreeNode.cpp:131-137 | the largest code `(1 << 8n) - 1` is the largest value that fits in `n` bytes |
| ProbaCodec.EncodeMonotone | octomap/src/OcTreeNode.cpp:100-102 | encoding is monotonically non-decreasing in the probability |
| ProbaCodec.DecodeMonotone | octomap/src/OcTreeNode.cpp:96-98 | decoding is monotonically non-decreasing in the code |
| ProbaCodec.EncodeAfterDecode | octomap/src/OcTreeNode.cpp:96-102 | every code survives decode-then-encode exactly |
| ProbaCodec.QuantisationError | octomap/src/OcTreeNode.cpp:96-102 | for `p` in [0, 1], `decode(encode(p))` is within `1 / (2 (2^(8n) - 1))` of `p` |
| NodeIO.SelectLayout | octomap/src/OcTreeNode.cpp:105-119 | encoding 0 selects the native layout, 1 to 4 the fixed-point layout of that width, and anything above 4 is an unsupported-encoding error |
| NodeIO.WriteData | octomap/src/OcTreeNode.cpp:125-150 | encodings above 4 fail as unsupported; 0 writes the native value; 1 to 4 always succeed for a probability in [0, 1] and write the little-endian bytes of `proba_encode(p, n)` |
| NodeIO.ReadData | octomap/src/OcTreeNode.cpp:104-121 | encodings above 4 fail as unsupported, the same as in writing; encoding 0 succeeds exactly when the stream starts with a native value, consumes that one token and stores it; 1 to 4 succeed exactly when the stream starts with `n` bytes, consume exactly those and store the logit of `proba_decode` of their little-endian value; the children are never changed |
| NodeIO.WriteThenRead | octomap/src/OcTreeNode.cpp:104-150 | reading back what was written, from any stream position, succeeds, consumes exactly the written tokens, restores the native value for encoding 0, and restores the logit of the quantised probability for 1 to 4 |
| NodeIO.RoundTripAccuracy | octomap/src/OcTreeNode.cpp:96-115 | after a 1 to 4 byte round trip the probability before the logit is within half a quantisation step of the written one |
| OcTreeNode.MaxChildLogOdds | octomap/src/OcTreeNode.cpp:76-89 | the result is at least `-FLT_MAX`, at least every present child's log-odds, and either `-FLT_MAX` or some present child's log-odds; with no child it is `-FLT_MAX`; with children whose values are finite floats it equals one of them |
| OcTreeNode.MeanChildLogOdds | octomap/src/OcTreeNode.cpp:58-74 | the result is negative infinity exactly when no slot is occupied; otherwise it is the logit of the mean child probability; with one child and an inverting logit it is that child's own log-odds |
| OcTreeNode.PresentCountIsCardinality | octomap/src/OcTreeNode.cpp:60-67 | the loop's counter equals the number of occupied slots |
| OcTreeNode.ProbabilitySumBounds | octomap/src/OcTreeNode.cpp:59-67 | the summed child probabilities are 0 with no child, and otherwise strictly between 0 and the child count |
| OcTreeNode.MeanChildProbabilityBounds | octomap/src/OcTreeNode.cpp:58-73 | the mean child probability is 0 with no child, and otherwise strictly inside (0, 1), so its logit is finite |
| OcTreeNode.SingleChildMean | octomap/src/OcTreeNode.cpp:58-73 | with exactly one child the mean is that child's probability, and its logit is the child's log-odds when the logit inverts the logistic function |
| OcTreeNode.AddValue | octomap/src/OcTreeNode.cpp:91-93 | the update raises the value by exactly `delta` and leaves the children unchanged |
| OcTreeNode.UpdatesAccumulate | octomap/src/OcTreeNode.cpp:91-93 | a sequence of updates adds the sum of its deltas, without clamping, and leaves the children unchanged |
| CalibratedCodec.Encode | octomap/src/octree_precision.cpp:20-23 | a probability inside the band encodes to a code in `[0, 2^b - 1]` |
| CalibratedCodec.Decode | octomap/src/octree_precision.cpp:15-18 | a code in `[0, 2^b - 1]` decodes to a probability inside the band |
| CalibratedCodec.EncodeEndpoints | octomap/src/octree_precision.cpp:12-23 | `THRESH_MIN` encodes to 0 and `THRESH_MAX` to `2^b - 1` |
| CalibratedCodec.DecodeEndpoints | octomap/src/octree_precision.cpp:12-18 | 0 decodes to `THRESH_MIN` and `2^b - 1` to `THRESH_MAX` |
| CalibratedCodec.DecodeIncreasing | octomap/src/octree_precision.cpp:15-18 | decoding is strictly increasing, hence monotonically non-decreasing |
| CalibratedCodec.EncodeMonotone | octomap/src/octree_precision.cpp:20-23 | encoding is monotonically non-decreasing in the probability |
| CalibratedCodec.EncodeAfterDecode | octomap/src/octree_precision.cpp:15-23 | every code survives decode-then-encode exactly |
| CalibratedCodec.RoundTripError | octomap/src/octree_precision.cpp:15-23 | in the model's integer codec, any probability comes back within half a step, `(THRESH_MAX - THRESH_MIN) / (2 (2^b - 1))` |
| Precision.SquaredError | octomap/src/octree_precision.cpp:34 | a node's squared round-trip error is non-negative |
| Precision.SquaredErrorBound | octomap/src/octree_precision.cpp:34 | a node's squared round-trip error is at most the square of half a step |
| Precision.Explore | octomap/src/octree_precision.cpp:25-44 | the count is at least 1, so the driver's division is defined, and the error sum is non-negative |
| Precision.ExploreFrom | octomap/src/octree_precision.cpp:36-42 | visiting the remaining slots only adds to the count and to the error |
| Precision.Preorder | octomap/src/octree_precision.cpp:25-44 | the depth-first listing of a subtree starts with the node itself |
| Precision.ExploreIsPreorderSum | octomap/src/octree_precision.cpp:25-44 | `explore`'s count is the number of nodes of the subtree, and its error is the sum of their squared errors, in depth-first pre-order over octants 0 to 7 with absent slots skipped |
| Precision.ExploreLeaf | octomap/src/octree_precision.cpp:28-43 | a node without children yields count 1 and its own squared round-trip error |
| Precision.ExploreErrorBound | octomap/src/octree_precision.cpp:25-44 | the error sum is at most the node count times the worst error of one node |
| Precision.MeanSquaredError | octomap/src/octree_precision.cpp:76-79 | the per-node mean squared error lies between 0 and the square of half a step |
| Precision.PrecisionSweep | octomap/src/octree_precision.cpp:76-79 | the driver produces one figure per width 1 to 32; each is `explore`'s error over its count, and lies between 0 and the square of half a step at that width |
| Precision.SweepCanRise | octomap/src/octree_precision.cpp:76-79 | the driver's figure can rise with the width: a one-node tree whose probability is one third of the way up the band has mean squared error 0 at 2 bits and a positive one at 3 bits |
| Precision.WiderIsNotAlwaysMoreAccurate | octomap/src/octree_precision.cpp:15-34 | one extra bit can increase the error: a probability one third of the way up the band has error 0 at 2 bits and a positive error at 3 bits |

## Left out

- Floating point: `exp`, `log`, `pow`, `float`/`double` rounding, and `round` on floats are idealised over `real`. Results that hold only because of float behaviour cannot be stated over reals.
- The logistic and logit transforms (`probability`, `logodds`, `log(mean/(1-mean))`) are not computed. They are the function parameters of `Logistic`.
- The native float layout (`OcTreeDataNode<float>::readData` / `writeData`) is an external call. It is modelled as one opaque token that reads back unchanged.
- ByteCodec.WriteFixedPoint: a failed write yields only the error. The source writes all `n` bytes to the stream before it tests the residue and exits, and the model drops that partial output. Under the requires of `NodeIO.WriteData` the overflow cannot occur.
- Stream failures: a short stream makes the source read an indeterminate byte. The model returns `ReadFailure` instead.
- NodeIO.ReadData: the stream is typed, so a token of the other layout fails with `ReadFailure`. The source reads raw bytes as they are. For encoding 0 it takes the next 4 bytes as a float, and for 1 to 4 it takes the leading bytes of a native float as code bytes. Streams written by `NodeIO.WriteData` with the same encoding never hit this case (`NodeIO.WriteThenRead`).
- Process termination and the messages printed before `exit(-1)` are replaced by `Err` values.
- C integer widths are modelled as mathematical integers. Three cases are affected:
  - `byte << (8*i)` on a promoted `int` can overflow for `i = 3`;
  - `value_encoded` is a 32-bit `unsigned`;
  - `1LL << b` overflows for `b >= 63`.
- ProbaCodec.Encode: does not model the conversion of an out-of-range float to `unsigned`. In float arithmetic, `p * (2^32 - 1)` can round up to `2^32` for 4-byte encoding, and that conversion is undefined.
- CalibratedCodec.Encode: returns a mathematical integer. For a probability outside the band, the source converts a negative or too-large rounded value to `unsigned`, which is undefined. The band is built from the engine's default clamping thresholds (0.1192 and 0.971). So a tree built with those defaults keeps probabilities inside the band; a tree built with other thresholds need not.
- Precision.Explore: the node count is an unbounded `nat` rather than a wrapping 32-bit `unsigned`, and the error sum is exact rather than a `float` accumulation.
- The driver's `sqrt`, its printing, its argument handling and tree reading (`AbstractOcTree::read`, `dynamic_cast`, `getTreeType`) are I/O. `PrecisionSweep` reports the mean squared error whose square root the driver prints.
- The tree engine (`nodeChildExists`, `getNodeChild`, `getRoot`, node allocation) is replaced by the `Node` datatype. The model does not enforce that an allocated child array has exactly 8 slots; every operation iterates over the slots that exist.
- octomap/src/convert_octree.cpp is not part of this model. It is command-line and file plumbing over the tree engine.

=== FILE: byte_codec.dfy ===
/** The fixed-point byte layer of `OcTreeNode::writeData` / `readData`: an
    encoded value is written as `n` bytes, low byte first, and read back by
    summing `byte_i * 256^i`. Everything here is exact integer arithmetic. */
module ByteCodec {
  import opened Powers
  import opened Results

  type byte = x: int | 0 <= x < 256

  /** The reference layout: byte `i` is `(v >> 8i) & 0xff`, for `i < n`. */
  function Digits(v: nat, n: nat): (bytes: seq<byte>)
    ensures |bytes| == n
  {
    seq(n, i requires 0 <= i < n => (v / Pow256(i)) % 256)
  }

  /** The value of a little-endian byte string: the sum of `bytes[i] * 256^i`,
      accumulated from the low byte upwards as the read loop does. */
  function LittleEndian(bytes: seq<byte>): (v: nat)
    ensures v < Pow256(|bytes|)
  {
    if |bytes| == 0 then 0
    else
      var k := |bytes| - 1;
      var low := LittleEndian(bytes[..k]);
      MulNonNegative(255 - bytes[k], Pow256(k));
      low + bytes[k] * Pow256(k)
  }

  /** The write loop of `writeData`: emit the low byte, shift right by eight,
      `n` times; what is left afterwards is the residue. */
  method WriteBytes(v: nat, n: nat) returns (bytes: seq<byte>, residue: nat)
    ensures |bytes| == n
    ensures forall i :: 0 <= i < n ==> bytes[i] == (v / Pow256(i)) % 256
    ensures residue == v / Pow256(n)
    ensures residue == 0 <==> v < Pow256(n)
    ensures residue == 0 ==> LittleEndian(bytes) == v
  {
    bytes := [];
    residue := v;
    for i := 0 to n
      invariant |bytes| == i
      invariant bytes == Digits(v, i)
      invariant residue == v / Pow256(i)
    {
      bytes := bytes + [residue % 256];
      DivDiv(v, Pow256(i), 256);
      residue := residue / 256;
    }
    ResidueZeroIffFits(v, n);
    if residue == 0 {
      ReadAfterWrite(v, n);
    }
  }

  /** The read loop of `readData`: accumulate `byte_i << 8i` for each byte. */
  method ReadBytes(bytes: seq<byte>) returns (v: nat)
    ensures v == LittleEndian(bytes)
    ensures v < Pow256(|bytes|)
    ensures Digits(v, |bytes|) == bytes
  {
    v := 0;
    for i := 0 to |bytes|
      invariant v == LittleEndian(bytes[..i])
    {
      assert bytes[..i + 1][..i] == bytes[..i];
      v := v + bytes[i] * Pow256(i);
    }
    assert bytes[..|bytes|] == bytes;
    WriteAfterRead(bytes);
  }

  /** The write half of `writeData` with its overflow check: all `n` bytes
      are emitted first, and the write then fails when something is left
      after the `n` shifts. A failed write yields only the error. */
  function WriteFixedPoint(v: nat, n: nat): (r: Result<seq<byte>>)
    ensures r.Ok? <==> v < Pow256(n)
    ensures r.Ok? ==> r.value == Digits(v, n) && LittleEndian(r.value) == v
    ensures r.Err? ==> r.error == ValueOverflow(v / Pow256(n)) && v / Pow256(n) > 0
  {
    var residue := v / Pow256(n);
    ResidueZeroIffFits(v, n);
    if residue != 0 then Err(ValueOverflow(residue))
    else
      ReadAfterWrite(v, n);
      Ok(Digits(v, n))
  }

  /** Nothing is left after `n` byte shifts exactly when `v` fits in `n` bytes. */
  lemma ResidueZeroIffFits(v: nat, n: nat)
    ensures v / Pow256(n) == 0 <==> v < Pow256(n)
  {
    var p := Pow256(n);
    if v < p {
      DivModUnique(v, p, 0, v);
    } else {
      assert v == p * (v / p) + v % p;
    }
  }

  /** Reading the `n` written bytes gives back the low `n` bytes of `v`. */
  lemma {:induction false} LittleEndianDigits(v: nat, n: nat)
    ensures LittleEndian(Digits(v, n)) == v % Pow256(n)
  {
    if n > 0 {
      var d := Digits(v, n);
      assert d[..n - 1] == Digits(v, n - 1);
      LittleEndianDigits(v, n - 1);
      ModNextByte(v, Pow256(n - 1));
      assert Pow256(n) == Pow256(n - 1) * 256;
    }
  }

  /** Round trip on values: read(write(v)) == v whenever v fits in n bytes. */
  lemma ReadAfterWrite(v: nat, n: nat)
    requires v < Pow256(n)
    ensures LittleEndian(Digits(v, n)) == v
  {
    LittleEndianDigits(v, n);
    DivModUnique(v, Pow256(n), 0, v);
  }

  /** Two byte strings of the same length with the same value are equal. */
  lemma {:induction false} LittleEndianInjective(a: seq<byte>, b: seq<byte>)
    requires |a| == |b| && LittleEndian(a) == LittleEndian(b)
    ensures a == b
  {
    if |a| > 0 {
      var k := |a| - 1;
      LittleEndianTopByte(a);
      LittleEndianTopByte(b);
      LittleEndianInjective(a[..k], b[..k]);
      assert a == a[..k] + [a[k]] && b == b[..k] + [b[k]];
    }
  }

  /** The top byte and the lower bytes of a little-endian string are the
      quotient and remainder of its value by the top byte's weight. */
  lemma LittleEndianTopByte(a: seq<byte>)
    requires |a| > 0
    ensures LittleEndian(a) / Pow256(|a| - 1) == a[|a| - 1]
    ensures LittleEndian(a) % Pow256(|a| - 1) == LittleEndian(a[..|a| - 1])
  {
    var k := |a| - 1;
    DivModUnique(LittleEndian(a), Pow256(k), a[k], LittleEndian(a[..k]));
  }

  /** Round trip on byte strings: write(read(bytes)) == bytes. */
  lemma WriteAfterRead(bytes: seq<byte>)
    ensures Digits(LittleEndian(bytes), |bytes|) == bytes
  {
    var v := LittleEndian(bytes);
    ReadAfterWrite(v, |bytes|);
    LittleEndianInjective(Digits(v, |bytes|), bytes);
  }
}

=== FILE: calibrated_codec.dfy ===
/** The calibrated codec of the precision analyser (octree_precision.cpp):
    a probability in the band [ThreshMin, ThreshMax] is rescaled linearly
    onto the integers 0 .. 2^b - 1 and back, for a bit width `b`. */
module CalibratedCodec {
  import opened Powers
  import opened RealArith
  import opened Rounding

  /** The band the calibrated codec maps onto its codes: the engine's default
      clamping thresholds, widened by 0.0001. Trees built with those defaults
      keep their probabilities inside it. */
  const ThreshMin: real := 0.1192 - 0.0001
  const ThreshMax: real := 0.971 + 0.0001
  const Width: real := ThreshMax - ThreshMin

  /** `(1 << b) - 1`, the largest code of a `b`-bit encoding. */
  function Levels(b: nat): (m: nat)
    ensures b >= 1 ==> m >= 1
  {
    Pow2(b) - 1
  }

  /** Position of `p` in the band, 0 at the bottom and 1 at the top. */
  function Scale(p: real): real
  {
    (p - ThreshMin) / Width
  }

  /** The probability at position `x` of the band. */
  function Unscale(x: real): real
  {
    ThreshMin + x * Width
  }

  lemma ScaleUnscale(x: real)
    ensures Scale(Unscale(x)) == x
  {
  }

  lemma UnscaleScale(p: real)
    ensures Unscale(Scale(p)) == p
  {
  }

  lemma ScaleMonotone(p: real, q: real)
    requires p <= q
    ensures Scale(p) <= Scale(q)
  {
    RealDivMonotone(p - ThreshMin, q - ThreshMin, Width);
  }

  /** Distances in the band are distances in position times the band width. */
  lemma UnscaleDistance(x: real, y: real)
    ensures Unscale(x) - Unscale(y) == (x - y) * Width
  {
  }

  function Encode(p: real, b: nat): (v: int)
    ensures ThreshMin <= p <= ThreshMax ==> 0 <= v <= Levels(b)
  {
    assert ThreshMin <= p <= ThreshMax ==> 0 <= Quantise(Scale(p), Levels(b)) <= Levels(b) by {
      if ThreshMin <= p <= ThreshMax {
        ScaleMonotone(ThreshMin, p);
        ScaleMonotone(p, ThreshMax);
        QuantiseRange(Scale(p), Levels(b));
      }
    }
    Quantise(Scale(p), Levels(b))
  }

  function Decode(v: int, b: nat): (p: real)
    requires b >= 1
    ensures 0 <= v <= Levels(b) ==> ThreshMin <= p <= ThreshMax
  {
    var x := v as real / Levels(b) as real;
    assert 0 <= v <= Levels(b) ==> 0.0 <= x <= 1.0 by {
      if 0 <= v <= Levels(b) {
        RealDivMonotone(0.0, v as real, Levels(b) as real);
        RealDivMonotone(v as real, Levels(b) as real, Levels(b) as real);
      }
    }
    Unscale(x)
  }

  /** Half a quantisation step: the worst round-trip error at `b` bits. */
  function HalfStep(b: nat): (h: real)
    requires b >= 1
    ensures h > 0.0
  {
    Width / (2 * Levels(b)) as real
  }

  /** The bottom of the band encodes to 0, the top to the largest code. */
  lemma EncodeEndpoints(b: nat)
    ensures Encode(ThreshMin, b) == 0
    ensures Encode(ThreshMax, b) == Levels(b)
  {
    assert Scale(ThreshMin) == 0.0;
    assert Scale(ThreshMax) == 1.0;
    QuantiseEnds(Levels(b));
  }

  /** Code 0 decodes to the bottom of the band, the largest code to the top. */
  lemma DecodeEndpoints(b: nat)
    requires b >= 1
    ensures Decode(0, b) == ThreshMin
    ensures Decode(Levels(b), b) == ThreshMax
  {
    var m := Levels(b) as real;
    RealDivSelf(m);
    assert Decode(Levels(b), b) == Unscale(m / m);
  }

  /** Decoding is strictly increasing, hence never reorders codes. */
  lemma DecodeIncreasing(v: int, w: int, b: nat)
    requires b >= 1 && v < w
    ensures Decode(v, b) < Decode(w, b)
  {
    var m := Levels(b) as real;
    assert w as real / m - v as real / m == (w - v) as real / m;
    RealDivMonotone(1.0, (w - v) as real, m);
  }

  /** Encoding never reorders probabilities. */
  lemma EncodeMonotone(p: real, q: real, b: nat)
    requires p <= q
    ensures Encode(p, b) <= Encode(q, b)
  {
    ScaleMonotone(p, q);
    QuantiseMonotone(Scale(p), Scale(q), Levels(b));
  }

  /** Every code is reproduced exactly by decoding and re-encoding it. */
  lemma EncodeAfterDecode(v: int, b: nat)
    requires b >= 1
    ensures Encode(Decode(v, b), b) == v
  {
    var m := Levels(b) as real;
    ScaleUnscale(v as real / m);
    QuantiseGridPoint(v, Levels(b));
  }

  /** Half a step in position, stretched over the band. */
  lemma HalfStepInBand(b: nat)
    requires b >= 1
    ensures HalfStep(b) == (0.5 / Levels(b) as real) * Width
  {
  }

  /** The round-trip error is the position error stretched over the band. */
  lemma RoundTripDistance(p: real, b: nat)
    requires b >= 1
    ensures Decode(Encode(p, b), b) - p == (Encode(p, b) as real / Levels(b) as real - Scale(p)) * Width
  {
    UnscaleScale(p);
    UnscaleDistance(Encode(p, b) as real / Levels(b) as real, Scale(p));
  }

  /** In the model's integer codec, any probability, inside the band or not,
      comes back within half a step. */
  lemma RoundTripError(p: real, b: nat)
    requires b >= 1
    ensures -HalfStep(b) <= Decode(Encode(p, b), b) - p <= HalfStep(b)
  {
    var m := Levels(b) as real;
    var err := Encode(p, b) as real / m - Scale(p);
    QuantiseError(Scale(p), Levels(b));
    assert -0.5 / m <= err <= 0.5 / m;
    RoundTripDistance(p, b);
    HalfStepInBand(b);
    RealMulMonotone(-0.5 / m, err, Width);
    RealMulMonotone(err, 0.5 / m, Width);
  }
}

=== FILE: node_io.dfy ===
/** Persistence of a node's payload (`OcTreeNode::readData` / `writeData`).
    The encoding parameter selects the layout: 0 keeps the native float,
    1 to 4 store the quantised probability in that many bytes, and anything
    larger is refused. A stream is a sequence of tokens: single bytes, or the
    native float layout as one opaque token. */
module NodeIO {
  import opened Results
  import opened ByteCodec
  import ProbaCodec
  import opened OcTreeNode

  /** The widest fixed-point encoding, in bytes. */
  const MaxEncoding := 4

  datatype Layout = NativeLayout | FixedPoint(width: nat)

  datatype Token = Octet(octet: byte) | NativeFloat(native: real)

  /** The encoding dispatch shared by reading and writing. */
  function SelectLayout(encoding: nat): (r: Result<Layout>)
    ensures r == Ok(NativeLayout) <==> encoding == 0
    ensures r == Ok(FixedPoint(encoding)) <==> 1 <= encoding <= MaxEncoding
    ensures r == Err(UnsupportedEncoding(encoding)) <==> encoding > MaxEncoding
  {
    if encoding == 0 then Ok(NativeLayout)
    else if encoding <= MaxEncoding then Ok(FixedPoint(encoding))
    else Err(UnsupportedEncoding(encoding))
  }

  function Octets(bytes: seq<byte>): (tokens: seq<Token>)
    ensures |tokens| == |bytes|
  {
    seq(|bytes|, i requires 0 <= i < |bytes| => Octet(bytes[i]))
  }

  /** The probability a node stores. */
  function StoredProbability(node: Node, t: Logistic): real
  {
    t.probability(node.logOdds)
  }

  /** `writeData`: the tokens written for a node's value. The caller
      guarantees the probability lies in [0, 1], as the logistic transform
      does. */
  function WriteData(node: Node, encoding: nat, t: Logistic): (r: Result<seq<Token>>)
    requires 0.0 <= StoredProbability(node, t) <= 1.0
    ensures r == Err(UnsupportedEncoding(encoding)) <==> encoding > MaxEncoding
    ensures encoding == 0 ==> r == Ok([NativeFloat(node.logOdds)])
    ensures 1 <= encoding <= MaxEncoding ==>
              r == Ok(Octets(Digits(ProbaCodec.Encode(StoredProbability(node, t), encoding), encoding)))
  {
    match SelectLayout(encoding)
    case Err(e) => Err(e)
    case Ok(NativeLayout) => Ok([NativeFloat(node.logOdds)])
    case Ok(FixedPoint(n)) =>
      var v := ProbaCodec.Encode(StoredProbability(node, t), n);
      ProbaCodec.MaxCodeFitsBytes(n);
      match WriteFixedPoint(v, n)
      case Err(e) => Err(e)
      case Ok(bytes) => Ok(Octets(bytes))
  }

  /** The first `n` tokens as bytes, when they are all bytes. */
  function TakeOctets(stream: seq<Token>, n: nat): (r: Option<seq<byte>>)
    ensures r.Some? <==> n <= |stream| && forall i :: 0 <= i < n ==> stream[i].Octet?
    ensures r.Some? ==> Octets(r.value) == stream[..n]
  {
    if n <= |stream| && forall i :: 0 <= i < n ==> stream[i].Octet? then
      Some(seq(n, i requires 0 <= i < n => stream[i].octet))
    else None
  }

  /** `readData`: restore a node's value from the front of a stream and
      return the node together with the rest of the stream. The children are
      never touched. */
  function ReadData(node: Node, stream: seq<Token>, encoding: nat, t: Logistic): (r: Result<(Node, seq<Token>)>)
    ensures r == Err(UnsupportedEncoding(encoding)) <==> encoding > MaxEncoding
    ensures r.Ok? ==> r.value.0.children == node.children
    ensures r.Ok? ==> |r.value.1| < |stream| && r.value.1 == stream[|stream| - |r.value.1|..]
    ensures r.Ok? ==> |stream| - |r.value.1| == (if encoding == 0 then 1 else encoding)
    ensures encoding == 0 ==> (r.Ok? <==> |stream| > 0 && stream[0].NativeFloat?)
    ensures encoding == 0 && r.Ok? ==> r.value.0.logOdds == stream[0].native
    ensures 1 <= encoding <= MaxEncoding ==> (r.Ok? <==> TakeOctets(stream, encoding).Some?)
    ensures 1 <= encoding <= MaxEncoding && r.Ok? ==>
              r.value.0.logOdds == t.logodds(ProbaCodec.Decode(LittleEndian(TakeOctets(stream, encoding).value), encoding))
  {
    match SelectLayout(encoding)
    case Err(e) => Err(e)
    case Ok(NativeLayout) =>
      if |stream| > 0 && stream[0].NativeFloat? then Ok((node.(logOdds := stream[0].native), stream[1..]))
      else Err(ReadFailure)
    case Ok(FixedPoint(n)) =>
      match TakeOctets(stream, n)
      case None => Err(ReadFailure)
      case Some(bytes) =>
        var p := ProbaCodec.Decode(LittleEndian(bytes), n);
        Ok((node.(logOdds := t.logodds(p)), stream[n..]))
  }

  /** The value a node holds after writing it with `encoding` and reading it
      back: the native value itself, or the log-odds of the quantised
      probability. */
  function Restored(node: Node, encoding: nat, t: Logistic): real
    requires 0.0 <= StoredProbability(node, t) <= 1.0
    requires encoding <= MaxEncoding
  {
    if encoding == 0 then node.logOdds
    else t.logodds(ProbaCodec.Decode(ProbaCodec.Encode(StoredProbability(node, t), encoding), encoding))
  }

  /** Writing a node and reading the result back, from any position in a
      stream, restores the value the codec can represent and consumes exactly
      what was written. */
  lemma WriteThenRead(node: Node, target: Node, encoding: nat, t: Logistic, rest: seq<Token>)
    requires 0.0 <= StoredProbability(node, t) <= 1.0
    requires encoding <= MaxEncoding
    ensures WriteData(node, encoding, t).Ok?
    ensures ReadData(target, WriteData(node, encoding, t).value + rest, encoding, t)
              == Ok((target.(logOdds := Restored(node, encoding, t)), rest))
  {
    var written := WriteData(node, encoding, t).value;
    var stream := written + rest;
    if encoding > 0 {
      var v := ProbaCodec.Encode(StoredProbability(node, t), encoding);
      var bytes := Digits(v, encoding);
      ProbaCodec.MaxCodeFitsBytes(encoding);
      ReadAfterWrite(v, encoding);
      assert stream[..encoding] == Octets(bytes);
      assert forall i :: 0 <= i < encoding ==> stream[i] == Octet(bytes[i]);
      var taken := TakeOctets(stream, encoding).value;
      assert forall i :: 0 <= i < encoding ==> Octets(taken)[i] == Octet(taken[i]);
      assert taken == bytes;
      assert stream[encoding..] == rest;
    } else {
      assert stream[1..] == rest;
    }
  }

  /** After a round trip through 1 to 4 bytes the node's probability, before
      the logit, is within half a quantisation step of the written one. */
  lemma RoundTripAccuracy(node: Node, encoding: nat, t: Logistic)
    requires 0.0 <= StoredProbability(node, t) <= 1.0
    requires 1 <= encoding <= MaxEncoding
    ensures var q := ProbaCodec.Decode(ProbaCodec.Encode(StoredProbability(node, t), encoding), encoding);
            -0.5 / ProbaCodec.MaxCode(encoding) as real <= q - StoredProbability(node, t) <= 0.5 / ProbaCodec.MaxCode(encoding) as real
            && Restored(node, encoding, t) == t.logodds(q)
  {
    ProbaCodec.QuantisationError(StoredProbability(node, t), encoding);
  }
}

=== FILE: octree_node.dfy ===
/** The occupancy node of OcTreeNode.cpp: a log-odds value and up to eight
    children, one slot per octant. The logistic transform between log-odds
    and probability (and its inverse, the logit) is floating-point `exp` and
    `log` in the source; here it is a pair of functions passed in. */
module OcTreeNode {
  import opened Results
  import opened RealArith

  /** A node owns its children. `children` is empty when the node has no
      child array, and otherwise holds one slot per octant, in octant order. */
  datatype Node = Node(logOdds: real, children: seq<Option<Node>>)

  /** `-FLT_MAX`, the lowest finite single-precision float. */
  const LowestFloat: real := -340282346638528859811704183484516925440.0

  /** The probability of a log-odds value and the log-odds of a probability. */
  datatype Logistic = Logistic(probability: real -> real, logodds: real -> real)

  /** The logistic function maps every log-odds value strictly inside (0, 1). */
  ghost predicate IsLogistic(t: Logistic)
  {
    forall x :: 0.0 < t.probability(x) < 1.0
  }

  /** The logit undoes the logistic function. */
  ghost predicate LogitInverts(t: Logistic)
  {
    forall x :: t.logodds(t.probability(x)) == x
  }

  /** A log-odds value, or the negative infinity that `log(0)` yields. */
  datatype ExtendedReal = NegativeInfinity | Finite(value: real)

  /** Indices of the occupied slots of a child array. */
  function PresentSlots(kids: seq<Option<Node>>): set<int>
  {
    set i | 0 <= i < |kids| && kids[i].Some?
  }

  /** Number of occupied slots, counted from the first slot upwards. */
  function PresentCount(kids: seq<Option<Node>>): nat
  {
    if |kids| == 0 then 0
    else PresentCount(kids[..|kids| - 1]) + (if kids[|kids| - 1].Some? then 1 else 0)
  }

  /** Sum of the children's probabilities, from the first slot upwards. */
  function ProbabilitySum(kids: seq<Option<Node>>, t: Logistic): real
  {
    if |kids| == 0 then 0.0
    else
      var last := kids[|kids| - 1];
      ProbabilitySum(kids[..|kids| - 1], t) + (if last.Some? then t.probability(last.value.logOdds) else 0.0)
  }

  /** The mean probability of the present children, 0 when there are none. */
  function MeanChildProbability(node: Node, t: Logistic): real
  {
    var c := PresentCount(node.children);
    if c == 0 then 0.0 else ProbabilitySum(node.children, t) / c as real
  }

  /** `getMaxChildLogOdds`: the largest log-odds among the present children,
      starting from `-FLT_MAX`. */
  method MaxChildLogOdds(node: Node) returns (max: real)
    ensures LowestFloat <= max
    ensures forall i :: 0 <= i < |node.children| && node.children[i].Some? ==> node.children[i].value.logOdds <= max
    ensures max == LowestFloat || exists i :: 0 <= i < |node.children| && node.children[i].Some? && node.children[i].value.logOdds == max
    ensures PresentSlots(node.children) == {} ==> max == LowestFloat
    ensures PresentSlots(node.children) != {} && (forall i :: i in PresentSlots(node.children) ==> LowestFloat <= node.children[i].value.logOdds) ==>
              exists i :: i in PresentSlots(node.children) && node.children[i].value.logOdds == max
  {
    var kids := node.children;
    max := LowestFloat;
    for i := 0 to |kids|
      invariant LowestFloat <= max
      invariant forall j :: 0 <= j < i && kids[j].Some? ==> kids[j].value.logOdds <= max
      invariant max == LowestFloat || exists j :: 0 <= j < i && kids[j].Some? && kids[j].value.logOdds == max
    {
      if kids[i].Some? {
        var l := kids[i].value.logOdds;
        if l > max {
          max := l;
        }
      }
    }
    if max != LowestFloat {
      var j :| 0 <= j < |kids| && kids[j].Some? && kids[j].value.logOdds == max;
      assert j in PresentSlots(kids);
    } else if PresentSlots(kids) != {} {
      var i :| i in PresentSlots(kids);
      assert kids[i].value.logOdds <= max;
    }
  }

  /** `getMeanChildLogOdds`: average the present children's probabilities and
      return the log-odds of that mean; with no child the mean stays 0 and its
      log-odds is negative infinity. */
  method MeanChildLogOdds(node: Node, t: Logistic) returns (r: ExtendedReal)
    ensures r == NegativeInfinity <==> PresentSlots(node.children) == {}
    ensures r.Finite? ==> r.value == t.logodds(MeanChildProbability(node, t))
    ensures LogitInverts(t) && |PresentSlots(node.children)| == 1 ==>
              forall i :: i in PresentSlots(node.children) ==> r == Finite(node.children[i].value.logOdds)
  {
    var kids := node.children;
    var mean := 0.0;
    var c := 0;
    for i := 0 to |kids|
      invariant mean == ProbabilitySum(kids[..i], t)
      invariant c == PresentCount(kids[..i])
    {
      assert kids[..i + 1][..i] == kids[..i];
      if kids[i].Some? {
        mean := mean + t.probability(kids[i].value.logOdds);
        c := c + 1;
      }
    }
    assert kids[..|kids|] == kids;
    PresentCountIsCardinality(kids);
    if c > 0 {
      mean := mean / c as real;
    }
    if c == 0 {
      r := NegativeInfinity;
    } else {
      r := Finite(t.logodds(mean));
      if c == 1 {
        SingleChildMean(node, t);
      }
    }
  }

  /** `addValue`: the additive log-odds update. */
  function AddValue(node: Node, delta: real): (r: Node)
    ensures r.children == node.children
    ensures r.logOdds - node.logOdds == delta
  {
    node.(logOdds := node.logOdds + delta)
  }

  /** A sequence of `addValue` calls, in order. */
  function ApplyUpdates(node: Node, deltas: seq<real>): Node
    decreases deltas
  {
    if |deltas| == 0 then node else ApplyUpdates(AddValue(node, deltas[0]), deltas[1..])
  }

  function Total(deltas: seq<real>): real
  {
    if |deltas| == 0 then 0.0 else deltas[0] + Total(deltas[1..])
  }

  /** Repeated updates add up: the result is the sum of all deltas on top of
      the original value, with no clamping, and the children are untouched. */
  lemma {:induction false} UpdatesAccumulate(node: Node, deltas: seq<real>)
    ensures ApplyUpdates(node, deltas) == Node(node.logOdds + Total(deltas), node.children)
    decreases deltas
  {
    if |deltas| > 0 {
      UpdatesAccumulate(AddValue(node, deltas[0]), deltas[1..]);
    }
  }

  /** The recursive count is the number of occupied slots. */
  lemma {:induction false} PresentCountIsCardinality(kids: seq<Option<Node>>)
    ensures PresentCount(kids) == |PresentSlots(kids)|
  {
    if |kids| > 0 {
      var k := |kids| - 1;
      var init := kids[..k];
      PresentCountIsCardinality(init);
      assert forall i :: i in PresentSlots(init) <==> i in PresentSlots(kids) && i != k;
      if kids[k].Some? {
        assert PresentSlots(kids) == PresentSlots(init) + {k};
      } else {
        assert PresentSlots(kids) == PresentSlots(init);
      }
    }
  }

  /** With a logistic transform the probability sum lies strictly between 0
      and the number of present children, or is 0 when there is none. */
  lemma {:induction false} ProbabilitySumBounds(kids: seq<Option<Node>>, t: Logistic)
    requires IsLogistic(t)
    ensures PresentCount(kids) == 0 ==> ProbabilitySum(kids, t) == 0.0
    ensures PresentCount(kids) > 0 ==> 0.0 < ProbabilitySum(kids, t) < PresentCount(kids) as real
  {
    if |kids| > 0 {
      var last := kids[|kids| - 1];
      ProbabilitySumBounds(kids[..|kids| - 1], t);
      if last.Some? {
        assert 0.0 < t.probability(last.value.logOdds) < 1.0;
      }
    }
  }

  /** The mean probability of a node with children is a probability strictly
      inside (0, 1), so its logit is finite. */
  lemma MeanChildProbabilityBounds(node: Node, t: Logistic)
    requires IsLogistic(t)
    ensures PresentSlots(node.children) == {} ==> MeanChildProbability(node, t) == 0.0
    ensures PresentSlots(node.children) != {} ==> 0.0 < MeanChildProbability(node, t) < 1.0
  {
    PresentCountIsCardinality(node.children);
    ProbabilitySumBounds(node.children, t);
    var c := PresentCount(node.children) as real;
    if c > 0.0 {
      var s := ProbabilitySum(node.children, t);
      RealDivStrictMonotone(0.0, s, c);
      RealDivStrictMonotone(s, c, c);
      RealDivSelf(c);
      assert MeanChildProbability(node, t) == s / c;
    }
  }

  /** With exactly one child in slot `i`, the mean is that child's probability. */
  lemma {:induction false} SingleChildSum(kids: seq<Option<Node>>, t: Logistic, i: int)
    requires 0 <= i < |kids| && kids[i].Some?
    requires forall j :: 0 <= j < |kids| && j != i ==> kids[j].None?
    ensures PresentCount(kids) == 1
    ensures ProbabilitySum(kids, t) == t.probability(kids[i].value.logOdds)
  {
    var k := |kids| - 1;
    if k == i {
      NoChildSum(kids[..k], t);
    } else {
      SingleChildSum(kids[..k], t, i);
    }
  }

  lemma {:induction false} NoChildSum(kids: seq<Option<Node>>, t: Logistic)
    requires forall j :: 0 <= j < |kids| ==> kids[j].None?
    ensures PresentCount(kids) == 0 && ProbabilitySum(kids, t) == 0.0
  {
    if |kids| > 0 {
      NoChildSum(kids[..|kids| - 1], t);
    }
  }

  /** A single child's log-odds comes back from the mean when the logit
      inverts the logistic function. */
  lemma SingleChildMean(node: Node, t: Logistic)
    requires |PresentSlots(node.children)| == 1
    ensures forall i :: i in PresentSlots(node.children) ==>
              MeanChildProbability(node, t) == t.probability(node.children[i].value.logOdds)
    ensures LogitInverts(t) ==> forall i :: i in PresentSlots(node.children) ==>
              t.logodds(MeanChildProbability(node, t)) == node.children[i].value.logOdds
  {
    var kids := node.children;
    var i :| i in PresentSlots(kids);
    forall j | 0 <= j < |kids| && j != i
      ensures kids[j].None?
    {
      if kids[j].Some? {
        assert {i, j} <= PresentSlots(kids);
        assert |{i, j}| == 2;
        SubsetCardinality({i, j}, PresentSlots(kids));
      }
    }
    SingleChildSum(kids, t, i);
    assert PresentSlots(kids) == {i};
  }

  lemma SubsetCardinality(a: set<int>, b: set<int>)
    requires a <= b
    ensures |a| <= |b|
  {
    assert b == a + (b - a);
  }
}

=== FILE: powers.dfy ===
/** Powers of two and of 256, and the division facts the byte codec rests on. */
module Powers {

  /** `1 << k` as a mathematical integer. */
  function Pow2(k: nat): (r: nat)
    ensures r >= 1
    ensures k >= 1 ==> r >= 2
  {
    if k == 0 then 1 else 2 * Pow2(k - 1)
  }

  /** `256^n`, the weight of byte `n` in a little-endian layout. */
  function Pow256(n: nat): (r: nat)
    ensures r >= 1
  {
    if n == 0 then 1 else 256 * Pow256(n - 1)
  }

  lemma {:induction false} Pow2Add(a: nat, b: nat)
    ensures Pow2(a + b) == Pow2(a) * Pow2(b)
  {
    if a > 0 {
      Pow2Add(a - 1, b);
      assert Pow2(a + b) == 2 * Pow2(a - 1 + b);
    }
  }

  /** A byte shift is a multiplication by 256: `1 << 8n == 256^n`. */
  lemma {:induction false} Pow256IsByteShift(n: nat)
    ensures Pow256(n) == Pow2(8 * n)
  {
    if n > 0 {
      Pow256IsByteShift(n - 1);
      Pow2Add(8 * (n - 1), 8);
      assert Pow2(8) == 256;
      assert 8 * n == 8 * (n - 1) + 8;
    }
  }

  /** A product of non-negative factors is non-negative. */
  lemma MulNonNegative(x: int, y: int)
    requires x >= 0 && y >= 0
    ensures x * y >= 0
  {
  }

  /** A non-zero multiple of a positive `d` is at least `d` away from zero. */
  lemma MulAwayFromZero(d: int, k: int)
    requires d > 0
    ensures k >= 1 ==> d * k >= d
    ensures k <= -1 ==> d * k <= -d
  {
    if k >= 1 {
      MulNonNegative(d, k - 1);
    } else if k <= -1 {
      MulNonNegative(d, -k - 1);
    }
  }

  /** Quotient and remainder are determined by the division identity. */
  lemma DivModUnique(v: int, d: int, q: int, r: int)
    requires d > 0 && 0 <= r < d && v == d * q + r
    ensures v / d == q && v % d == r
  {
    var q' := v / d;
    var r' := v % d;
    assert v == d * q' + r';
    assert d * (q - q') == r' - r;
    MulAwayFromZero(d, q - q');
  }

  /** Shifting right twice is shifting right by the sum. */
  lemma DivDiv(v: nat, a: nat, b: nat)
    requires a > 0 && b > 0
    ensures (v / a) / b == v / (a * b)
  {
    var q1, r1 := v / a, v % a;
    var q2, r2 := q1 / b, q1 % b;
    assert v == a * q1 + r1;
    assert q1 == b * q2 + r2;
    assert a * q1 == (a * b) * q2 + a * r2 by {
      assert a * (b * q2 + r2) == a * (b * q2) + a * r2;
    }
    MulNonNegative(a, b - 1 - r2);
    assert a * (b - 1 - r2) == a * b - a - a * r2;
    DivModUnique(v, a * b, q2, a * r2 + r1);
  }

  /** The low `n + 1` bytes are the low `n` bytes plus byte `n`. */
  lemma ModNextByte(v: nat, a: nat)
    requires a > 0
    ensures v % (a * 256) == v % a + ((v / a) % 256) * a
  {
    var q1, r1 := v / a, v % a;
    var q2, r2 := q1 / 256, q1 % 256;
    assert v == a * q1 + r1;
    assert q1 == 256 * q2 + r2;
    assert a * q1 == (a * 256) * q2 + a * r2;
    MulNonNegative(a, 255 - r2);
    DivModUnique(v, a * 256, q2, a * r2 + r1);
  }
}

=== FILE: precision.dfy ===
/** The precision analyser (octree_precision.cpp): for a bit width, walk the
    whole tree depth-first and add up, over every node, the squared error the
    calibrated codec makes on that node's probability; the driver repeats this
    for every width from 1 to 32 and reports the mean over the nodes. */
module Precision {
  import opened RealArith
  import opened Rounding
  import opened CalibratedCodec
  import opened OcTreeNode

  /** Sum of squared round-trip errors, and the number of nodes visited. */
  datatype Stats = Stats(error: real, count: nat)

  /** The widest bit width the driver tries. */
  const MaxPrecision := 32

  /** Squared round-trip error of the calibrated codec on `p`. */
  function SquaredError(p: real, precision: nat): (e: real)
    requires precision >= 1
    ensures e >= 0.0
  {
    Square(Decode(Encode(p, precision), precision) - p)
  }

  function Square(x: real): (s: real)
    ensures s >= 0.0
  {
    var a := if x >= 0.0 then x else -x;
    RealMulNonNegative(a, a);
    assert x * x == a * a;
    x * x
  }

  /** The squared error of a single node is at most a squared half step. */
  lemma SquaredErrorBound(p: real, precision: nat)
    requires precision >= 1
    ensures SquaredError(p, precision) <= MaxNodeError(precision)
  {
    RoundTripError(p, precision);
    SquareBound(Decode(Encode(p, precision), precision) - p, HalfStep(precision));
  }

  /** The worst squared round-trip error at a given width. */
  function MaxNodeError(precision: nat): (e: real)
    requires precision >= 1
    ensures e >= 0.0
  {
    Square(HalfStep(precision))
  }

  /** `explore`: the node's own error plus the results of its present
      children, visited in slot order. The tree is only read. */
  function Explore(node: Node, precision: nat, t: Logistic): (r: Stats)
    requires precision >= 1
    ensures r.count >= 1 && r.error >= 0.0
    decreases node, |node.children| + 1
  {
    var own := Stats(SquaredError(t.probability(node.logOdds), precision), 1);
    ExploreFrom(node, 0, precision, t, own)
  }

  /** The loop over the child slots of `explore`, from slot `i` on, adding
      each present child's result to the accumulator `acc`. */
  function ExploreFrom(node: Node, i: nat, precision: nat, t: Logistic, acc: Stats): (r: Stats)
    requires precision >= 1
    requires i <= |node.children|
    ensures r.count >= acc.count && r.error >= acc.error
    decreases node, |node.children| - i
  {
    if i == |node.children| then acc
    else
      match node.children[i]
      case None => ExploreFrom(node, i + 1, precision, t, acc)
      case Some(child) =>
        var sub := Explore(child, precision, t);
        ExploreFrom(node, i + 1, precision, t, Stats(acc.error + sub.error, acc.count + sub.count))
  }

  /** Depth-first pre-order listing of a subtree: the node, then the subtrees
      of its present children in slot order. */
  function Preorder(node: Node): (nodes: seq<Node>)
    ensures |nodes| >= 1 && nodes[0] == node
    decreases node, |node.children| + 1
  {
    [node] + PreorderFrom(node, 0)
  }

  function PreorderFrom(node: Node, i: nat): seq<Node>
    requires i <= |node.children|
    decreases node, |node.children| - i
  {
    if i == |node.children| then []
    else
      match node.children[i]
      case None => PreorderFrom(node, i + 1)
      case Some(child) => Preorder(child) + PreorderFrom(node, i + 1)
  }

  /** The squared error of each node of a list. */
  function NodeErrors(nodes: seq<Node>, precision: nat, t: Logistic): (errors: seq<real>)
    requires precision >= 1
    ensures |errors| == |nodes|
  {
    seq(|nodes|, i requires 0 <= i < |nodes| => SquaredError(t.probability(nodes[i].logOdds), precision))
  }

  function Sum(xs: seq<real>): real
  {
    if |xs| == 0 then 0.0 else xs[0] + Sum(xs[1..])
  }

  /** Sum of the squared errors over a list of nodes. */
  function TotalError(nodes: seq<Node>, precision: nat, t: Logistic): real
    requires precision >= 1
  {
    Sum(NodeErrors(nodes, precision, t))
  }

  lemma {:induction false} SumAppend(xs: seq<real>, ys: seq<real>)
    ensures Sum(xs + ys) == Sum(xs) + Sum(ys)
  {
    if |xs| == 0 {
      assert xs + ys == ys;
    } else {
      assert (xs + ys)[1..] == xs[1..] + ys;
      SumAppend(xs[1..], ys);
    }
  }

  lemma TotalErrorAppend(a: seq<Node>, b: seq<Node>, precision: nat, t: Logistic)
    requires precision >= 1
    ensures TotalError(a + b, precision, t) == TotalError(a, precision, t) + TotalError(b, precision, t)
  {
    assert NodeErrors(a + b, precision, t) == NodeErrors(a, precision, t) + NodeErrors(b, precision, t);
    SumAppend(NodeErrors(a, precision, t), NodeErrors(b, precision, t));
  }

  /** `explore` visits every node of the subtree exactly once, in pre-order:
      its count is the number of nodes and its error the sum of their errors. */
  lemma {:induction false} ExploreIsPreorderSum(node: Node, precision: nat, t: Logistic)
    requires precision >= 1
    ensures Explore(node, precision, t) == Stats(TotalError(Preorder(node), precision, t), |Preorder(node)|)
    decreases node, |node.children| + 1
  {
    var own := Stats(SquaredError(t.probability(node.logOdds), precision), 1);
    ExploreFromIsPreorderSum(node, 0, precision, t, own);
    var rest := PreorderFrom(node, 0);
    TotalErrorAppend([node], rest, precision, t);
    assert NodeErrors([node], precision, t) == [own.error];
    assert Sum([own.error]) == own.error + Sum([]);
  }

  lemma {:induction false} ExploreFromIsPreorderSum(node: Node, i: nat, precision: nat, t: Logistic, acc: Stats)
    requires precision >= 1
    requires i <= |node.children|
    ensures ExploreFrom(node, i, precision, t, acc)
              == Stats(acc.error + TotalError(PreorderFrom(node, i), precision, t), acc.count + |PreorderFrom(node, i)|)
    decreases node, |node.children| - i
  {
    if i < |node.children| {
      match node.children[i]
      case None =>
        ExploreFromIsPreorderSum(node, i + 1, precision, t, acc);
      case Some(child) =>
        var sub := Explore(child, precision, t);
        ExploreIsPreorderSum(child, precision, t);
        ExploreFromIsPreorderSum(node, i + 1, precision, t, Stats(acc.error + sub.error, acc.count + sub.count));
        TotalErrorAppend(Preorder(child), PreorderFrom(node, i + 1), precision, t);
    }
  }

  /** A node without present children is visited alone: one node, and its own
      round-trip error. */
  lemma ExploreLeaf(node: Node, precision: nat, t: Logistic)
    requires precision >= 1
    requires forall i :: 0 <= i < |node.children| ==> node.children[i].None?
    ensures Explore(node, precision, t) == Stats(SquaredError(t.probability(node.logOdds), precision), 1)
  {
    var own := Stats(SquaredError(t.probability(node.logOdds), precision), 1);
    LeafSlots(node, 0, precision, t, own);
  }

  lemma {:induction false} LeafSlots(node: Node, i: nat, precision: nat, t: Logistic, acc: Stats)
    requires precision >= 1
    requires i <= |node.children|
    requires forall j :: 0 <= j < |node.children| ==> node.children[j].None?
    ensures ExploreFrom(node, i, precision, t, acc) == acc
    decreases |node.children| - i
  {
    if i < |node.children| {
      LeafSlots(node, i + 1, precision, t, acc);
    }
  }

  /** A sum of `|xs|` terms, each at most `bound`, is at most `|xs| * bound`. */
  lemma {:induction false} SumBound(xs: seq<real>, bound: real)
    requires forall i :: 0 <= i < |xs| ==> xs[i] <= bound
    ensures Sum(xs) <= |xs| as real * bound
  {
    if |xs| > 0 {
      SumBound(xs[1..], bound);
    }
  }

  /** Every node's error is at most a squared half step, so the total is at
      most the node count times that. */
  lemma TotalErrorBound(nodes: seq<Node>, precision: nat, t: Logistic)
    requires precision >= 1
    ensures TotalError(nodes, precision, t) <= |nodes| as real * MaxNodeError(precision)
  {
    var errors := NodeErrors(nodes, precision, t);
    forall i | 0 <= i < |nodes|
      ensures errors[i] <= MaxNodeError(precision)
    {
      var p := t.probability(nodes[i].logOdds);
      assert errors[i] == SquaredError(p, precision);
      SquaredErrorBound(p, precision);
    }
    SumBound(errors, MaxNodeError(precision));
  }

  /** The driver's figure for one width: the mean squared error per node,
      well defined because `explore` always counts at least the root. */
  function MeanSquaredError(root: Node, precision: nat, t: Logistic): (mse: real)
    requires precision >= 1
    ensures 0.0 <= mse <= MaxNodeError(precision)
  {
    var s := Explore(root, precision, t);
    ExploreErrorBound(root, precision, t);
    MeanBound(s.error, s.count as real, MaxNodeError(precision));
    s.error / s.count as real
  }

  /** The whole subtree's error is at most its node count times the worst
      error of one node. */
  lemma ExploreErrorBound(root: Node, precision: nat, t: Logistic)
    requires precision >= 1
    ensures Explore(root, precision, t).error <= Explore(root, precision, t).count as real * MaxNodeError(precision)
  {
    var s := Explore(root, precision, t);
    var nodes := Preorder(root);
    assert s.error == TotalError(nodes, precision, t) && s.count == |nodes| by {
      ExploreIsPreorderSum(root, precision, t);
    }
    assert TotalError(nodes, precision, t) <= |nodes| as real * MaxNodeError(precision) by {
      TotalErrorBound(nodes, precision, t);
    }
  }

  /** The driver loop: one `explore` per bit width 1 .. 32, reporting the
      mean squared error of each (the driver prints its square root). */
  method PrecisionSweep(root: Node, t: Logistic) returns (report: seq<real>)
    ensures |report| == MaxPrecision
    ensures forall k :: 0 <= k < MaxPrecision ==>
              report[k] == Explore(root, k + 1, t).error / Explore(root, k + 1, t).count as real
    ensures forall k :: 0 <= k < MaxPrecision ==> 0.0 <= report[k] <= MaxNodeError(k + 1)
  {
    report := [];
    for precision := 1 to MaxPrecision + 1
      invariant |report| == precision - 1
      invariant forall k :: 0 <= k < precision - 1 ==> report[k] == MeanSquaredError(root, k + 1, t)
    {
      var result := Explore(root, precision, t);
      report := report + [result.error / result.count as real];
    }
  }

  lemma SquareBound(d: real, h: real)
    requires -h <= d <= h
    ensures Square(d) <= Square(h)
  {
    var a := if d >= 0.0 then d else -d;
    assert Square(d) == a * a;
    SquareMonotone(a, h);
  }

  lemma SquareMonotone(a: real, h: real)
    requires 0.0 <= a <= h
    ensures a * a <= Square(h)
  {
    RealMulMonotone(a, h, a);
    RealMulMonotone(a, h, h);
    assert h * a == a * h;
  }

  lemma MeanBound(total: real, count: real, bound: real)
    requires count >= 1.0 && 0.0 <= total <= count * bound
    ensures 0.0 <= total / count <= bound
  {
    RealDivMonotone(0.0, total, count);
    RealDivMonotone(total, count * bound, count);
  }

  /** Widening the codec does not always shrink the error: a probability one
      third of the way up the band is exact at 2 bits but not at 3 bits. */
  lemma WiderIsNotAlwaysMoreAccurate()
    ensures var p := ThreshMin + Width / 3.0;
            SquaredError(p, 2) == 0.0 && SquaredError(p, 3) > 0.0
  {
    var p := ThreshMin + Width / 3.0;
    assert Scale(p) == 1.0 / 3.0;
    assert Levels(2) == 3 && Levels(3) == 7;
    RoundInteger(1);
    assert Quantise(Scale(p), 3) == 1;
    assert Scale(p) * 7.0 == 7.0 / 3.0;
    assert Quantise(Scale(p), 7) == 2;
    assert Decode(2, 3) - p == Width * (2.0 / 7.0 - 1.0 / 3.0);
  }

  /** The driver's figure can rise with the width: for a single-node tree
      whose probability lies one third of the way up the band, the mean
      squared error is 0 at 2 bits and positive at 3 bits. */
  lemma SweepCanRise(l: real, t: Logistic)
    requires t.probability(l) == ThreshMin + Width / 3.0
    ensures MeanSquaredError(Node(l, []), 2, t) == 0.0
    ensures MeanSquaredError(Node(l, []), 3, t) > 0.0
  {
    WiderIsNotAlwaysMoreAccurate();
    ExploreLeaf(Node(l, []), 2, t);
    ExploreLeaf(Node(l, []), 3, t);
  }
}

=== FILE: proba_codec.dfy ===
/** The byte-width probability quantiser of OcTreeNode.cpp (`proba_encode`,
    `proba_decode`): a probability in [0, 1] is mapped linearly onto the
    integers 0 .. 2^(8n) - 1 and back. Floats are idealised as reals. */
module ProbaCodec {
  import opened Powers
  import opened RealArith
  import opened Rounding

  /** `(1 << 8n) - 1`, the largest code of an `n`-byte encoding. */
  function MaxCode(n: nat): nat
  {
    Pow2(8 * n) - 1
  }

  lemma MaxCodePositive(n: nat)
    requires n >= 1
    ensures MaxCode(n) >= 1
  {
  }

  /** The largest code is the largest value that fits in `n` bytes. */
  lemma MaxCodeFitsBytes(n: nat)
    ensures MaxCode(n) + 1 == Pow256(n)
  {
    Pow256IsByteShift(n);
  }

  function Encode(p: real, n: nat): (v: int)
    ensures 0.0 <= p <= 1.0 ==> 0 <= v <= MaxCode(n)
  {
    assert 0.0 <= p <= 1.0 ==> 0 <= Quantise(p, MaxCode(n)) <= MaxCode(n) by {
      if 0.0 <= p <= 1.0 {
        QuantiseRange(p, MaxCode(n));
      }
    }
    Quantise(p, MaxCode(n))
  }

  function Decode(v: nat, n: nat): (p: real)
    requires n >= 1
    ensures 0.0 <= p
    ensures p <= 1.0 <==> v <= MaxCode(n)
  {
    MaxCodePositive(n);
    RealRatioAtMostOne(v as real, MaxCode(n) as real);
    v as real / MaxCode(n) as real
  }

  /** Encoding never reorders probabilities. */
  lemma EncodeMonotone(p: real, q: real, n: nat)
    requires p <= q
    ensures Encode(p, n) <= Encode(q, n)
  {
    QuantiseMonotone(p, q, MaxCode(n));
  }

  /** Decoding never reorders codes. */
  lemma DecodeMonotone(v: nat, w: nat, n: nat)
    requires n >= 1 && v <= w
    ensures Decode(v, n) <= Decode(w, n)
  {
    MaxCodePositive(n);
    RealDivMonotone(v as real, w as real, MaxCode(n) as real);
  }

  /** Every code is reproduced exactly by decoding and re-encoding it. */
  lemma EncodeAfterDecode(v: nat, n: nat)
    requires n >= 1
    ensures Encode(Decode(v, n), n) == v
  {
    MaxCodePositive(n);
    QuantiseGridPoint(v, MaxCode(n));
  }

  /** A probability in [0, 1] comes back within half a quantisation step,
      that is within `1 / (2 * (2^(8n) - 1))`. */
  lemma QuantisationError(p: real, n: nat)
    requires n >= 1 && 0.0 <= p <= 1.0
    ensures -0.5 / MaxCode(n) as real <= Decode(Encode(p, n), n) - p <= 0.5 / MaxCode(n) as real
  {
    MaxCodePositive(n);
    QuantiseError(p, MaxCode(n));
  }
}

=== FILE: real_arith.dfy ===
/** Order facts about real multiplication and division, shared by the
    codecs and the error analysis. */
module RealArith {

  /** A product of non-negative reals is non-negative. */
  lemma RealMulNonNegative(x: real, y: real)
    requires x >= 0.0 && y >= 0.0
    ensures x * y >= 0.0
  {
  }

  /** Dividing by a positive real keeps the order. */
  lemma RealDivMonotone(x: real, y: real, d: real)
    requires x <= y && d > 0.0
    ensures x / d <= y / d
  {
    assert y / d - x / d == (y - x) / d;
    RealMulNonNegative(y - x, 1.0 / d);
  }

  /** A ratio of non-negative reals is at most one exactly when the
      numerator is at most the denominator. */
  lemma RealRatioAtMostOne(x: real, d: real)
    requires x >= 0.0 && d > 0.0
    ensures x / d >= 0.0
    ensures x / d <= 1.0 <==> x <= d
  {
    RealDivMonotone(0.0, x, d);
    assert d / d == 1.0;
    if x <= d {
      RealDivMonotone(x, d, d);
    } else {
      RealDivMonotone(d, x, d);
      RealDivMulCancel(x, d);
      assert x / d != 1.0;
    }
  }

  /** Scaling by a non-negative factor keeps the order. */
  lemma RealMulMonotone(x: real, y: real, m: real)
    requires x <= y && m >= 0.0
    ensures x * m <= y * m
  {
    RealMulNonNegative(y - x, m);
  }

  /** Dividing by a non-zero factor and multiplying back is the identity. */
  lemma RealDivMulCancel(x: real, m: real)
    requires m != 0.0
    ensures (x / m) * m == x
  {
  }

  /** Dividing by a positive real keeps a strict order. */
  lemma RealDivStrictMonotone(x: real, y: real, d: real)
    requires x < y && d > 0.0
    ensures x / d < y / d
  {
    assert y / d - x / d == (y - x) / d;
    assert (y - x) / d * d == y - x;
  }

  /** A positive real divided by itself is one. */
  lemma RealDivSelf(d: real)
    requires d > 0.0
    ensures d / d == 1.0
  {
  }
}

=== FILE: results.dfy ===
/** Optional values, the error kinds of the node codec, and a result type that
    carries either a value or one of those errors. The C++ code ends the
    process on an unsupported encoding and on an overflowing value; here those
    are returned to the caller. `ReadFailure` is the model's own: the C++ read
    never fails and uses whatever bytes follow. */
module Results {

  datatype Option<+T> = None | Some(value: T)

  datatype Error =
    /** An encoding parameter outside 0..4 was requested. */
    | UnsupportedEncoding(encoding: nat)
    /** The encoded value did not fit in the requested number of bytes;
        `residue` is what was left after shifting out every byte. */
    | ValueOverflow(residue: nat)
    /** The token stream did not start with the tokens the layout asks for
        (too short, or tokens of the other layout). */
    | ReadFailure

  datatype Result<+T> = Ok(value: T) | Err(error: Error)
}

=== FILE: rounding.dfy ===
/** The C library's `round`: nearest integer, halfway cases away from zero. */
module Rounding {
  import opened RealArith

  function Round(x: real): (r: int)
    ensures x - 0.5 <= r as real <= x + 0.5
    ensures x >= 0.0 ==> r >= 0
  {
    if x >= 0.0 then (x + 0.5).Floor else -((-x + 0.5).Floor)
  }

  /** Rounding never reorders its arguments. */
  lemma RoundMonotone(x: real, y: real)
    requires x <= y
    ensures Round(x) <= Round(y)
  {
    if x >= 0.0 {
      assert (x + 0.5).Floor <= (y + 0.5).Floor;
    } else if y < 0.0 {
      assert (-y + 0.5).Floor <= (-x + 0.5).Floor;
    }
  }

  /** The code of position `x` on a grid of `m` steps: `round(x * m)`. */
  function Quantise(x: real, m: nat): int
  {
    Round(x * m as real)
  }

  /** Quantising keeps the order of positions. */
  lemma QuantiseMonotone(x: real, y: real, m: nat)
    requires x <= y
    ensures Quantise(x, m) <= Quantise(y, m)
  {
    var a, b := x * m as real, y * m as real;
    assert a <= b by {
      RealMulMonotone(x, y, m as real);
    }
    assert Round(a) <= Round(b) by {
      RoundMonotone(a, b);
    }
  }

  /** Positions in [0, 1] quantise to codes in 0 .. m. */
  lemma QuantiseRange(x: real, m: nat)
    requires 0.0 <= x <= 1.0
    ensures 0 <= Quantise(x, m) <= m
  {
    var d := m as real;
    var a := x * d;
    assert 0.0 <= a by {
      RealMulNonNegative(x, d);
    }
    assert a <= d by {
      RealMulMonotone(x, 1.0, d);
      assert x * d <= 1.0 * d;
      assert 1.0 * d == d;
    }
    var r := Round(a);
    assert a - 0.5 <= r as real <= a + 0.5;
    assert 0 <= r <= m;
  }

  /** The ends of [0, 1] quantise to the ends of the grid. */
  lemma QuantiseEnds(m: nat)
    ensures Quantise(0.0, m) == 0
    ensures Quantise(1.0, m) == m
  {
    RoundInteger(0);
    RoundInteger(m);
  }

  /** Quantising moves a position by at most half a grid step. */
  lemma QuantiseError(x: real, m: nat)
    requires m >= 1
    ensures -0.5 / m as real <= Quantise(x, m) as real / m as real - x <= 0.5 / m as real
  {
    var d := m as real;
    var v := Quantise(x, m) as real;
    assert x * d - 0.5 <= v <= x * d + 0.5;
    assert v / d - x == (v - x * d) / d by {
      RealDivMulCancel(x, d);
    }
    RealDivMonotone(-0.5, v - x * d, d);
    RealDivMonotone(v - x * d, 0.5, d);
  }

  /** Grid points quantise to their own code. */
  lemma QuantiseGridPoint(k: int, m: nat)
    requires m >= 1
    ensures Quantise(k as real / m as real, m) == k
  {
    RealDivMulCancel(k as real, m as real);
    RoundInteger(k);
  }

  /** Integers are fixed points of rounding. */
  lemma RoundInteger(k: int)
    ensures Round(k as real) == k
  {
  }
}
